=== FILE: README.md ===
# Sumo arena server: a Dafny model

This project models the authoritative server of a multiplayer sumo arena game
(Node.js, `server/`). Players move in a circular arena and use abilities
gated by cooldowns. They are eliminated when they leave the arena, and the
last player standing wins. The model has three parts, one module per source
file:

- `Players` (`player.dfy`) models `server/player.js`. It covers the initial
  state of a new player and the ability gate `canUseAbility`. It covers the
  effective `useAbility`, which arms a cooldown stored as an absolute "next
  usable" timestamp and raises an effect flag. It also covers the movement
  step `updatePosition` and the `toJSON` snapshot. Nothing in the server calls
  `updatePosition`: the game loop moves players with `updatePhysics`, only the
  constructor sets `inputX`/`inputY`, and the input handler writes `vx`/`vy`
  directly. `Players.UpdatePosition` is therefore not the tick's movement step.
- `Rooms` (`room.dfy`) models `server/room.js`. It covers the roster
  operations, the `allReady` predicate, `startGame` and its 5-step countdown,
  and the steps of one game-loop tick. The tick runs in this order: physics,
  collisions, arena bounds, cooldowns, game-over check.
- `RoomManager` (`room_manager.dfy`) models `server/RoomManager.js`. It covers
  the room directory: `createRoom`, `getAvailableRoom`, `addPlayer`,
  `removePlayer`, `setReady` and `getRoom`.

Three helper modules support them. `Wrappers` holds `Option`. `Seqs` holds
`FirstIndex`, the shape of `Array.prototype.find`. `Decimal` renders a
natural number in decimal, as JavaScript does in `"room_" + n`, and proves
that the rendering can be read back.

Every operation is a pure function over immutable datatypes.

- Time is the parameter `now`, in milliseconds: the value `Date.now()` would
  return.
- Player ids are parameters. In the code they come from `uuid()`.
- Coordinates are `real`s.
- Distances are compared through their squares. A contact distance of 50 is
  non-negative, so `d < 50` is the same test as `dx² + dy² < 2500`. A player
  is outside an arena of radius R when R < 0 or `x² + y² > R²`, which is the
  same test as `d > R` for every R (`Rooms.OutOfArenaIsDistanceTest`).
- A room's two intervals are the flags `countdownRunning` and `loopRunning`.
  Their callbacks are the step functions `CountdownStep` and `Tick`, one call
  per firing.
- `createRoom` and `getAvailableRoom` return the room's index in the
  directory instead of the room object. `getRoom` returns the room value
  itself, as an `Option<Room>`.

Several quirks of the code are modelled as written:

- `checkCooldowns` subtracts 33 ms per tick from values that `Player` stores
  as absolute timestamps. `Rooms.TickShortensCooldown` shows the effect: an
  ability that is still cooling down at time `now` becomes usable at that same
  `now` after one tick.
- `startTimer` is never reset. After the first countdown has run to 0, a later
  game's countdown starts the loop at its first firing
  (`Rooms.RestartSkipsCountdown`).
- A room's id is `"room_" + (number of rooms + 1)`. Ids repeat after a room
  is deleted (`RoomManager.RoomIdsCanRepeat`).
- `getAvailableRoom` only looks at the last room.
- `setReady` only marks the first player with the id, in the first room that
  holds it.
- An unknown ability name looks up a value that is not a number: `undefined`
  or, for an inherited key such as `constructor`, a function. Comparing `now`
  with it converts it to NaN, so `now >= ...` is false. So `canUseAbility` is false for it, and `useAbility`
  returns false at its first line.

Some further facts about the code that shape the model:

- Cooldowns are absolute timestamps. The durations are 20000 ms for push,
  20000 for sprint, 10000 for slide and 40000 for invul.
- There is no ready-check timer, no spawn placement and no per-round
  `reset()`. The game starts as soon as every player (at least two) is ready.
- The countdown has 5 steps.
- Collisions move a touching pair by half their velocity difference, in
  opposite directions. Two touching players with equal velocities do not move.
- Push raises no flag and applies no knockback.

## Model

| member | source | states |
|---|---|---|
| Players.NewPlayer | server/player.js:5-45 | A new player has the given id. Its position and velocity are all 0. It is alive and not ready, with every effect flag off. Its speed multiplier is 1 and its input is (0, 0). Every cooldown equals the creation time, so every ability can be used at that time. |
| Players.ParseAbility | server/player.js:123-144 | Only the four names `push`, `sprint`, `slide` and `invul` denote an ability, and each denotes the one whose key it is. |
| Players.CanUseAbility | server/player.js:114-116 | An ability can be used exactly when the name is one of the four keys and `now` is at or after that key's stored timestamp. |
| Players.UseAbility | server/player.js:119-147 | Use succeeds exactly when `canUseAbility` holds. On failure the player is unchanged. On success only that ability's cooldown changes, to `now` plus its duration. Sprint, slide and invul raise `isSprinting`, `isSliding` and `isInvulnerable` respectively. Push raises nothing, and no other field changes. |
| Players.UseAbilityArmsCooldown | server/player.js:119-141 | After a successful use, the ability is unusable at exactly the times before `now` plus its duration. |
| Players.Durations | server/player.js:124-141 | The cooldowns are 20000 ms for push, 20000 for sprint, 10000 for slide and 40000 for invul. |
| Players.Clamp | server/player.js:99-104 | The speed limit leaves a velocity at or under the limit unchanged. It rescales a faster one to exactly the limit, on the same line and pointing the same way (a non-negative dot product with the input). Either way the squared speed is at most the squared limit. |
| Players.UpdatePosition | server/player.js:83-109 | A dead player is left completely unchanged. For a living player, the new velocity has squared speed at most 15² when sprinting and 8² otherwise. It lies on the damped velocity's line with a non-negative dot product with it, so it points the same way, and the position advances by it. Only position and velocity change. |
| Players.ToJson | server/player.js:150-165 | The snapshot, together with the push flag and the raw input it leaves out, rebuilds the player exactly. |
| Rooms.NewRoom | server/room.js:5-15 | A new room has the given id, no players, no started game, `startTimer` 5, arena radius 500, and no interval running. |
| Rooms.AddPlayer | server/room.js:18-22 | The roster grows by exactly one player, a fresh player with the given id, at the end. Nothing else changes. |
| Rooms.Without | server/room.js:25-27 | After filtering, no player carries the id. A player is kept exactly when it was present and carries another id. |
| Rooms.WithoutConcat | server/room.js:26 | The filter distributes over concatenation, so the remaining players keep their original order. |
| Rooms.WithoutAbsent | server/room.js:26 | Removing an id that no player carries leaves the roster unchanged. |
| Rooms.RemovePlayer | server/room.js:25-27 | The room keeps every player except those with the id, in their original order (the roster is the filter `Rooms.Without`, whose order `Rooms.WithoutConcat` fixes), and nothing besides the roster changes. |
| Rooms.PlayerIndex | server/RoomManager.js:65 | The search returns the first player with the id, or none when no player has it. |
| Rooms.AllReadyCount | server/room.js:30-32 | `allReady` holds exactly when there are at least 2 players and every one of them is ready. |
| Rooms.StartGame | server/room.js:35-37 | An already started game is left unchanged. Otherwise the game becomes started and the countdown is armed. The roster and `startTimer` are kept. |
| Rooms.CountdownStep | server/room.js:41-49 | Each firing lowers `startTimer` by 1. The countdown stops and the game loop starts exactly when `startTimer` reaches 0 or below. Nothing else changes. |
| Rooms.CountdownLength | server/room.js:41-49 | An armed countdown at `startTimer` t starts the loop at exactly the firing numbered max(t, 1). `startTimer` drops by one per firing until then, and the phase invariant holds throughout. |
| Rooms.FirstCountdown | server/room.js:11-49 | A new room's first countdown starts the loop at exactly the fifth firing and leaves `startTimer` at 0. |
| Rooms.RestartSkipsCountdown | server/room.js:35-49 | Because `startTimer` is never reset, a game restarted with `startTimer` at most 1 starts its loop at the first firing. |
| Rooms.UpdatePhysics | server/room.js:73-76 | Dead players are skipped entirely. Living players take position and velocity from the kinematics step. No other field changes. |
| Rooms.CollidePair | server/room.js:100-118 | A pair with a dead or invulnerable member, or with dx²+dy² ≥ 2500, is not moved. Otherwise p2 moves by half the velocity difference and p1 by the opposite amount. Only the two positions change, and the coordinate sums are preserved. |
| Rooms.Resolve | server/room.js:94-120 | The nested pair loops change only positions and never move a dead or invulnerable player. They preserve the sum of each coordinate over the roster. |
| Rooms.HandleCollisions | server/room.js:94-120 | `handleCollisions` changes only positions, leaves dead and invulnerable players in place, and preserves the sum of x and of y over the roster. |
| Rooms.OutOfArenaIsDistanceTest | server/room.js:127-128 | For any radius, including a negative one, the square-free test of being outside the arena agrees with the code's `Math.sqrt(x² + y²) > radius`. |
| Rooms.CheckArenaBounds | server/room.js:123-132 | Only `alive` changes. A player is alive afterwards exactly when it was alive and its distance from the centre is at most the radius. |
| Rooms.Decay | server/room.js:139-142 | A non-positive cooldown is unchanged. A positive cooldown c becomes max(0, c−33). |
| Rooms.DecayAll | server/room.js:138-143 | Each of the four cooldowns is decayed. |
| Rooms.CheckCooldowns | server/room.js:135-145 | Every player, dead or alive, has its cooldowns decayed and nothing else changed. |
| Rooms.TickShortensCooldown | server/room.js:135-145 | A cooldown timestamp more than 33 ahead blocks use at `timestamp − 33`, and after one tick it no longer does. |
| Rooms.Living | server/room.js:149 | A player is in the living list exactly when it is in the roster and alive. The list is empty exactly when nobody is alive. |
| Rooms.AtMostOneLiving | server/room.js:149-150 | The living list has at most one entry exactly when no two distinct players are alive. |
| Rooms.CheckGameOver | server/room.js:148-156 | Game over fires exactly when the game has started and at most one player is alive. The winner is null iff nobody is alive, and otherwise is a living player's id. The loop stops and the game is no longer started. When it does not fire, nothing changes. |
| Rooms.Tick | server/room.js:56-61 | A tick does nothing while the loop is stopped. It keeps the roster and its ids, and never revives a player. A player dead before the tick only has its cooldowns decayed. With the loop running, each player's state after the tick is its state after physics and collisions, except that it is alive exactly when it was alive and its post-collision position is inside the arena, and its cooldowns are decayed once. So every player alive after a tick is inside the arena. Game over is reported exactly when the loop was running in a started game and at most one player is alive afterwards; it comes with the loop stopped and the game ended, so the next tick does nothing and the event fires once. The event carries no winner exactly when nobody is alive after the tick, and otherwise the id of a living player, the lone survivor. |
| Rooms.ValidPreserved | server/room.js:35-49 | `startGame`, a countdown firing, a tick, `addPlayer` and `removePlayer` all preserve the invariant. The invariant says a started game is in exactly one of the countdown and loop phases. |
| RoomManager.RoomIdInjective | server/RoomManager.js:14 | Ids built from different room counts differ. |
| RoomManager.CreateRoom | server/RoomManager.js:13-18 | Exactly one room is appended and the others are kept. The new room is `new Room("room_" + (previous count + 1))`: no players, no started game, `startTimer` 5, arena radius 500 and no interval running. |
| RoomManager.GetAvailableRoom | server/RoomManager.js:21-27 | The directory is unchanged exactly when the last room exists, has fewer than 4 players and has not started. Otherwise a room is created. Either way the chosen room is the last one, and it has fewer than 4 players and no started game. |
| RoomManager.AddPlayer | server/RoomManager.js:30-38 | Only the chosen room changes. It gains exactly the new player, at the end, and so holds at most 4 players. |
| RoomManager.FindRoomOf | server/RoomManager.js:42-44 | The search returns the first room whose roster holds the id, or none when no room holds it. |
| RoomManager.RemovePlayer | server/RoomManager.js:41-59 | When no room holds the id, the result is null and nothing changes. Otherwise the room's id is returned and the player is gone from that room. If the room had not started, everyone left is unready; if it had, they are unchanged. The room leaves the directory exactly when its roster is now empty, and other rooms are untouched. |
| RoomManager.MarkReady | server/RoomManager.js:65-72 | Only the first player with the id gets `ready := value`. Afterwards the game has started exactly when it had already started or the room is now all ready, and the countdown is armed accordingly. |
| RoomManager.SetReady | server/RoomManager.js:63-77 | `setReady` returns true exactly when some room holds the id, and false leaves everything unchanged. On true, only the first such room changes, by `MarkReady`. |
| RoomManager.GetRoom | server/RoomManager.js:80-82 | The result is the first room with the given id, or none exactly when no room has it. |
| RoomManager.AddPlayerKeepsGood | server/RoomManager.js:21-37 | Adding a player keeps every room within 4 players, non-empty and in a valid phase. |
| RoomManager.RemovePlayerKeepsGood | server/RoomManager.js:41-57 | Removing a player keeps every room within 4 players, non-empty and in a valid phase. |
| RoomManager.SetReadyKeepsGood | server/RoomManager.js:63-77 | Setting readiness keeps every room within 4 players, non-empty and in a valid phase. |
| RoomManager.MarkReadyIdempotent | server/RoomManager.js:65-72 | Marking the same player with the same value twice is the same as marking it once. |
| RoomManager.SetReadyIdempotent | server/RoomManager.js:63-77 | Calling `setReady` twice with the same id and value is the same as calling it once. |
| RoomManager.RoomIdsCanRepeat | server/RoomManager.js:13-56 | Suppose the first of two rooms empties and is deleted while the second is full. The room then created for a joiner gets the same id as the remaining room. |
| Decimal.ToNatFromNat | server/RoomManager.js:14 | The decimal rendering of a room count reads back as that count. |

## Left out

- `server/server.js` is left out. It holds the Express and socket.io wiring and the logging, and its ability handler is an empty stub.
- All of `client/` is left out: rendering, keyboard capture and socket events.
- The intervals and timeouts themselves are not modelled, and neither is the auto-clearing of effect flags that the timeouts schedule. Nothing in the model lowers them again, so an invulnerable player, for example, never takes part in a collision again. The countdown and loop intervals are flags, and their callbacks are explicit steps.
- `Date.now()` is a parameter. The effective `useAbility` reads the clock twice, once inside `canUseAbility` and once for the new cooldown. The model uses one `now` for both.
- Broadcasting (`broadcast`, `io.to(...).emit`), `socket.join` and `uuid()` are left out. Ids are parameters, and the game-over event is returned as a value.
- The first `useAbility` definition (server/player.js:50-81) is left out. The second definition in the class replaces it, so it is dead code.
- Rooms.UpdatePhysics: the floating-point kinematics of `updatePhysics` (the `Math.sqrt` speed limit and the division by √2 for diagonal movement) are abstracted into a parameter `advance`. Only the skipping of dead players and the fact that only position and velocity change are stated.
- Players.UpdatePosition: `Math.sqrt` is a parameter `speed`, required to be the non-negative square root of the damped velocity's squared norm, and only for a living player.
- Coordinates and velocities are reals, not IEEE doubles, so rounding is not modelled. Several results hold only for this reason. The collision step preserves the coordinate sums exactly, though in doubles `p1.x -= forceX; p2.x += forceX` can change `p1.x + p2.x`. The squared-distance tests agree exactly with the code's `Math.sqrt` comparisons.
- Cooldown timestamps are unbounded integers. JavaScript numbers hold these integers exactly up to 2^53, far beyond any clock value.
- The `delta` argument of `updatePosition` is unused by the code and left out. `speedMultiplier` starts at 1 and nothing in the core changes it. `updatePhysics` multiplies the speed by it, and that step is part of the abstract `advance`.
- RoomManager.RemovePlayer: when a room empties, the code only filters it out of the directory and never clears its countdown interval or game loop. The detached room keeps firing. Its countdown still reaches 0 and starts the loop, and the loop's first tick reports game over with no winner. Every firing broadcasts to the old id, which a later `createRoom` can give to a new room. The model drops the room with its `countdownRunning`/`loopRunning` flags, so these later firings are not modelled.

=== FILE: decimal.dfy ===
/** Decimal rendering of natural numbers, as JavaScript's `"" + n` does for a non-negative integer. */
module Decimal {

  function DigitChar(d: nat): (c: char)
    requires d < 10
    ensures '0' <= c <= '9'
  {
    ('0' as int + d) as char
  }

  function DigitValue(c: char): nat {
    if '0' <= c <= '9' then c as int - '0' as int else 0
  }

  /** The shortest decimal numeral of `n`: only digits, no leading zero. */
  function FromNat(n: nat): (s: string)
    ensures |s| >= 1
    ensures forall k :: 0 <= k < |s| ==> '0' <= s[k] <= '9'
    ensures n > 0 ==> s[0] != '0'
    decreases n
  {
    if n < 10 then [DigitChar(n)] else FromNat(n / 10) + [DigitChar(n % 10)]
  }

  /** Reads a numeral back; characters that are not digits count as 0. */
  function ToNat(s: string): nat {
    if |s| == 0 then 0 else ToNat(s[..|s| - 1]) * 10 + DigitValue(s[|s| - 1])
  }

  lemma {:induction false} ToNatFromNat(n: nat)
    ensures ToNat(FromNat(n)) == n
    decreases n
  {
    if n >= 10 {
      var s := FromNat(n);
      assert s[..|s| - 1] == FromNat(n / 10);
      ToNatFromNat(n / 10);
    }
  }

  /** Distinct numbers have distinct numerals. */
  lemma FromNatInjective(m: nat, n: nat)
    ensures FromNat(m) == FromNat(n) ==> m == n
  {
    ToNatFromNat(m);
    ToNatFromNat(n);
  }
}

=== FILE: player.dfy ===
/**
  The player entity of server/player.js: kinematics, ability cooldowns stored as
  absolute "next usable" timestamps, effect flags, and the client snapshot.
  Time is the parameter `now` (milliseconds, the value `Date.now()` would give).
*/
module Players {
  import opened Wrappers

  datatype Ability = Push | Sprint | Slide | Invul

  /** The key of the ability in the cooldown object. */
  function AbilityName(a: Ability): string {
    match a
    case Push => "push"
    case Sprint => "sprint"
    case Slide => "slide"
    case Invul => "invul"
  }

  /** The ability a client-supplied name refers to, if any. */
  function ParseAbility(name: string): (r: Option<Ability>)
    ensures r.Some? ==> AbilityName(r.value) == name
    ensures r.None? ==> forall a :: AbilityName(a) != name
  {
    if name == "push" then Some(Push)
    else if name == "sprint" then Some(Sprint)
    else if name == "slide" then Some(Slide)
    else if name == "invul" then Some(Invul)
    else None
  }

  lemma ParseAbilityName(a: Ability)
    ensures ParseAbility(AbilityName(a)) == Some(a)
  {
  }

  /** Milliseconds an ability stays unusable after a successful use. */
  function Duration(a: Ability): int {
    match a
    case Push => 20000
    case Sprint => 20000
    case Slide => 10000
    case Invul => 40000
  }

  /** For each ability, the time from which it may be used again. */
  datatype Cooldowns = Cooldowns(push: int, sprint: int, slide: int, invul: int) {

    function Get(a: Ability): int {
      match a
      case Push => push
      case Sprint => sprint
      case Slide => slide
      case Invul => invul
    }

    function Set(a: Ability, t: int): (r: Cooldowns)
      ensures r.Get(a) == t
      ensures forall b :: b != a ==> r.Get(b) == Get(b)
    {
      match a
      case Push => this.(push := t)
      case Sprint => this.(sprint := t)
      case Slide => this.(slide := t)
      case Invul => this.(invul := t)
    }
  }

  datatype Player = Player(
    id: string,
    x: real, y: real,
    vx: real, vy: real,
    speedMultiplier: real,
    isInvulnerable: bool, isSprinting: bool, isSliding: bool, pushing: bool,
    cooldowns: Cooldowns,
    ready: bool,
    alive: bool,
    inputX: real, inputY: real)

  /** The player the constructor builds at time `now`. */
  function NewPlayer(id: string, now: int): (p: Player)
    ensures p.id == id
    ensures p.x == 0.0 && p.y == 0.0 && p.vx == 0.0 && p.vy == 0.0
    ensures p.alive && !p.ready
    ensures !p.isInvulnerable && !p.isSprinting && !p.isSliding && !p.pushing
    ensures p.speedMultiplier == 1.0 && p.inputX == 0.0 && p.inputY == 0.0
    ensures forall a :: p.cooldowns.Get(a) == now
    ensures forall a :: CanUseAbility(p, AbilityName(a), now)
  {
    Player(id, 0.0, 0.0, 0.0, 0.0, 1.0, false, false, false, false,
           Cooldowns(now, now, now, now), false, true, 0.0, 0.0)
  }

  /**
    Whether the named ability may be used at `now`. An unknown name looks up
    `undefined` or an inherited non-number, and `now >=` it is false in JavaScript.
  */
  function CanUseAbility(p: Player, name: string, now: int): (r: bool)
    ensures r <==> exists a :: AbilityName(a) == name && now >= p.cooldowns.Get(a)
  {
    match ParseAbility(name)
    case None => false
    case Some(a) => ParseAbilityName(a); now >= p.cooldowns.Get(a)
  }

  /** The effect flags a successful use of `a` raises on top of `p`'s. */
  function WithEffect(p: Player, a: Ability): Player {
    match a
    case Push => p
    case Sprint => p.(isSprinting := true)
    case Slide => p.(isSliding := true)
    case Invul => p.(isInvulnerable := true)
  }

  /**
    The effective `useAbility` (the later of the two definitions in the class).
    Returns the new player and whether the ability was used.
  */
  function UseAbility(p: Player, name: string, now: int): (r: (Player, bool))
    ensures r.1 <==> CanUseAbility(p, name, now)
    ensures !r.1 ==> r.0 == p
    ensures r.1 ==> ParseAbility(name).Some?
    ensures r.1 ==> var a := ParseAbility(name).value;
      && r.0.cooldowns.Get(a) == now + Duration(a)
      && (forall b :: b != a ==> r.0.cooldowns.Get(b) == p.cooldowns.Get(b))
      && (r.0.isSprinting <==> p.isSprinting || a == Sprint)
      && (r.0.isSliding <==> p.isSliding || a == Slide)
      && (r.0.isInvulnerable <==> p.isInvulnerable || a == Invul)
      && r.0 == p.(cooldowns := r.0.cooldowns, isSprinting := r.0.isSprinting,
                   isSliding := r.0.isSliding, isInvulnerable := r.0.isInvulnerable)
  {
    if !CanUseAbility(p, name, now) then (p, false)
    else
      match ParseAbility(name)
      case None => (p, false)
      case Some(a) =>
        var q := p.(cooldowns := p.cooldowns.Set(a, now + Duration(a)));
        (WithEffect(q, a), true)
  }

  /** After a successful use, the ability stays unusable until its full duration has passed. */
  lemma UseAbilityArmsCooldown(p: Player, name: string, now: int, later: int)
    requires UseAbility(p, name, now).1
    ensures var a := ParseAbility(name).value;
      !CanUseAbility(UseAbility(p, name, now).0, name, later) <==> later < now + Duration(a)
  {
  }

  /** The fixed cooldown lengths, in milliseconds. */
  lemma Durations()
    ensures Duration(Push) == 20000 && Duration(Sprint) == 20000
    ensures Duration(Slide) == 10000 && Duration(Invul) == 40000
  {
  }

  const Accel: real := 0.5
  const Friction: real := 0.9

  /** Speed limit of `updatePosition`: higher while sprinting. */
  function MaxSpeed(p: Player): real {
    if p.isSprinting then 15.0 else 8.0
  }

  function NormSq(x: real, y: real): real {
    x * x + y * y
  }

  /** `s` is the non-negative square root of `q` (the value of `Math.sqrt(q)`). */
  predicate IsRoot(s: real, q: real) {
    s >= 0.0 && s * s == q
  }

  /** Velocity after input acceleration and friction, before the speed limit. */
  function DampedVelocity(p: Player): (real, real) {
    ((p.vx + p.inputX * Accel) * Friction, (p.vy + p.inputY * Accel) * Friction)
  }

  lemma ScaleNorm(x: real, y: real, k: real)
    ensures NormSq(x * k, y * k) == NormSq(x, y) * (k * k)
  {
  }

  lemma NonNegativeProduct(a: real, b: real)
    requires a >= 0.0 && b >= 0.0
    ensures a * b >= 0.0
  {
  }

  /** Rescaling a velocity of norm `s` by `m / s` gives norm `m`. */
  lemma ScaledToLimit(vx: real, vy: real, s: real, m: real)
    requires IsRoot(s, NormSq(vx, vy)) && s > 0.0
    ensures NormSq(vx / s * m, vy / s * m) == m * m
  {
    var k := m / s;
    assert vx / s * m == vx * k;
    assert vy / s * m == vy * k;
    ScaleNorm(vx, vy, k);
    assert s * k == m;
    assert (s * s) * (k * k) == (s * k) * (s * k);
  }

  /**
    The speed limit applied to velocity (vx, vy) of norm `speed`: a faster
    velocity is rescaled onto the limit `m`, keeping its direction.
  */
  function Clamp(vx: real, vy: real, speed: real, m: real): (r: (real, real))
    requires IsRoot(speed, NormSq(vx, vy)) && m >= 0.0
    ensures NormSq(r.0, r.1) <= m * m
    ensures speed <= m ==> r == (vx, vy)
    ensures speed > m ==> NormSq(r.0, r.1) == m * m
    ensures r.0 * vy == r.1 * vx
    ensures r.0 * vx + r.1 * vy >= 0.0
  {
    if speed > m then
      ScaledToLimit(vx, vy, speed, m);
      assert vx / speed * m * vy == vy / speed * m * vx;
      var k := m / speed;
      assert vx / speed * m == vx * k && vy / speed * m == vy * k;
      NonNegativeProduct(NormSq(vx, vy), k);
      assert (vx * k) * vx + (vy * k) * vy == NormSq(vx, vy) * k;
      (vx / speed * m, vy / speed * m)
    else
      assert NormSq(vx, vy) <= m * m by {
        assert speed * speed <= speed * m;
        assert speed * m <= m * m;
      }
      (vx, vy)
  }

  /**
    One movement step. `speed` stands for `Math.sqrt` of the damped velocity's
    squared norm; it is only consulted for a living player.
  */
  function UpdatePosition(p: Player, speed: real): (r: Player)
    requires p.alive ==> IsRoot(speed, NormSq(DampedVelocity(p).0, DampedVelocity(p).1))
    ensures !p.alive ==> r == p
    ensures p.alive ==> NormSq(r.vx, r.vy) <= MaxSpeed(p) * MaxSpeed(p)
    ensures p.alive && speed <= MaxSpeed(p) ==> (r.vx, r.vy) == DampedVelocity(p)
    ensures p.alive && speed > MaxSpeed(p) ==> NormSq(r.vx, r.vy) == MaxSpeed(p) * MaxSpeed(p)
    ensures p.alive ==> r.vx * DampedVelocity(p).1 == r.vy * DampedVelocity(p).0
    ensures p.alive ==> r.vx * DampedVelocity(p).0 + r.vy * DampedVelocity(p).1 >= 0.0
    ensures p.alive ==> r.x == p.x + r.vx && r.y == p.y + r.vy
    ensures r == p.(x := r.x, y := r.y, vx := r.vx, vy := r.vy)
  {
    if !p.alive then p
    else
      var v := DampedVelocity(p);
      var c := Clamp(v.0, v.1, speed, MaxSpeed(p));
      p.(vx := c.0, vy := c.1, x := p.x + c.0, y := p.y + c.1)
  }

  /** The object `toJSON` sends to clients: everything but the raw input and the push flag. */
  datatype Snapshot = Snapshot(
    id: string,
    x: real, y: real,
    vx: real, vy: real,
    speedMultiplier: real,
    isInvulnerable: bool, isSprinting: bool, isSliding: bool,
    abilitiesCooldowns: Cooldowns,
    ready: bool,
    alive: bool)

  /** Rebuilds a player from a snapshot and the fields the snapshot leaves out. */
  function FromSnapshot(s: Snapshot, pushing: bool, inputX: real, inputY: real): Player {
    Player(s.id, s.x, s.y, s.vx, s.vy, s.speedMultiplier,
           s.isInvulnerable, s.isSprinting, s.isSliding, pushing,
           s.abilitiesCooldowns, s.ready, s.alive, inputX, inputY)
  }

  function ToJson(p: Player): (s: Snapshot)
    ensures FromSnapshot(s, p.pushing, p.inputX, p.inputY) == p
  {
    Snapshot(p.id, p.x, p.y, p.vx, p.vy, p.speedMultiplier,
             p.isInvulnerable, p.isSprinting, p.isSliding,
             p.cooldowns, p.ready, p.alive)
  }
}

=== FILE: room.dfy ===
/**
  The room of server/room.js as pure state transitions. The two intervals of a
  room (`countdownInterval` and `gameLoopInterval`) are the flags
  `countdownRunning` and `loopRunning`; their callbacks are `CountdownStep` and
  `Tick`, one call per firing.
*/
module Rooms {
  import opened Wrappers
  import opened Seqs
  import opened Players

  const InitialStartTimer: int := 5
  const DefaultArenaRadius: real := 500.0
  /** The character radius; a pair closer than this collides. */
  const ContactDistance: real := 50.0
  /** Milliseconds `checkCooldowns` takes off per tick. */
  const TickMs: int := 33

  datatype Room = Room(
    id: string,
    players: seq<Player>,
    gameStarted: bool,
    startTimer: int,
    arenaRadius: real,
    countdownRunning: bool,
    loopRunning: bool)

  function NewRoom(id: string): (r: Room)
    ensures r.id == id && r.players == [] && !r.gameStarted
    ensures r.startTimer == 5 && r.arenaRadius == 500.0
    ensures !r.countdownRunning && !r.loopRunning
  {
    Room(id, [], false, InitialStartTimer, DefaultArenaRadius, false, false)
  }

  /**
    A started game is in exactly one of its two timed phases: the start
    countdown or the game loop.
  */
  predicate Valid(room: Room) {
    && (room.gameStarted <==> room.countdownRunning || room.loopRunning)
    && !(room.countdownRunning && room.loopRunning)
  }

  // ---------------------------------------------------------------- roster

  /** The first player with the given id, as `players.find` returns it. */
  function PlayerIndex(ps: seq<Player>, playerId: string): (r: Option<nat>)
    ensures r.None? <==> forall k :: 0 <= k < |ps| ==> ps[k].id != playerId
    ensures r.Some? ==> r.value < |ps| && ps[r.value].id == playerId
    ensures r.Some? ==> forall k :: 0 <= k < r.value ==> ps[k].id != playerId
  {
    FirstIndex(ps, (p: Player) => p.id == playerId)
  }

  predicate HasPlayer(room: Room, playerId: string) {
    exists k :: 0 <= k < |room.players| && room.players[k].id == playerId
  }

  function AddPlayer(room: Room, playerId: string, now: int): (r: Room)
    ensures |r.players| == |room.players| + 1
    ensures r.players[..|room.players|] == room.players
    ensures r.players[|room.players|] == NewPlayer(playerId, now)
    ensures r == room.(players := r.players)
  {
    room.(players := room.players + [NewPlayer(playerId, now)])
  }

  /** The roster without any player carrying `playerId`, others in their original order. */
  function Without(ps: seq<Player>, playerId: string): (r: seq<Player>)
    ensures forall k :: 0 <= k < |r| ==> r[k].id != playerId
    ensures forall q :: q in r <==> q in ps && q.id != playerId
    ensures |r| <= |ps|
  {
    if |ps| == 0 then []
    else if ps[0].id == playerId then Without(ps[1..], playerId)
    else [ps[0]] + Without(ps[1..], playerId)
  }

  /** Filtering distributes over concatenation, so the survivors keep their relative order. */
  lemma {:induction false} WithoutConcat(a: seq<Player>, b: seq<Player>, playerId: string)
    ensures Without(a + b, playerId) == Without(a, playerId) + Without(b, playerId)
  {
    if |a| > 0 {
      assert (a + b)[1..] == a[1..] + b;
      WithoutConcat(a[1..], b, playerId);
    } else {
      assert a + b == b;
    }
  }

  /** Removing an id nobody carries changes nothing. */
  lemma {:induction false} WithoutAbsent(ps: seq<Player>, playerId: string)
    requires forall k :: 0 <= k < |ps| ==> ps[k].id != playerId
    ensures Without(ps, playerId) == ps
  {
    if |ps| > 0 {
      WithoutAbsent(ps[1..], playerId);
      assert [ps[0]] + ps[1..] == ps;
    }
  }

  function RemovePlayer(room: Room, playerId: string): (r: Room)
    ensures !HasPlayer(r, playerId)
    ensures forall q :: q in r.players <==> q in room.players && q.id != playerId
    ensures r.players == Without(room.players, playerId)
    ensures r == room.(players := r.players)
  {
    room.(players := Without(room.players, playerId))
  }

  /** The lobby condition for starting: more than one player, all of them ready. */
  predicate AllReady(ps: seq<Player>) {
    |ps| > 1 && forall k :: 0 <= k < |ps| ==> ps[k].ready
  }

  function CountReady(ps: seq<Player>): (n: nat)
    ensures n <= |ps|
  {
    if |ps| == 0 then 0 else (if ps[0].ready then 1 else 0) + CountReady(ps[1..])
  }

  lemma {:induction false} CountReadyAll(ps: seq<Player>)
    ensures CountReady(ps) == |ps| <==> forall k :: 0 <= k < |ps| ==> ps[k].ready
  {
    if |ps| > 0 {
      CountReadyAll(ps[1..]);
      assert forall k :: 0 <= k < |ps| - 1 ==> ps[1..][k] == ps[k + 1];
    }
  }

  /** `allReady` holds exactly when at least two players are present and all of them are ready. */
  lemma AllReadyCount(ps: seq<Player>)
    ensures AllReady(ps) <==> |ps| >= 2 && CountReady(ps) == |ps|
  {
    CountReadyAll(ps);
  }

  // ------------------------------------------------------- start countdown

  /** `startGame`: a started game is left alone; otherwise the countdown is armed. */
  function StartGame(room: Room): (r: Room)
    ensures r.gameStarted
    ensures room.gameStarted ==> r == room
    ensures !room.gameStarted ==> r.countdownRunning && r.loopRunning == room.loopRunning
    ensures r.players == room.players && r.startTimer == room.startTimer
    ensures r.id == room.id && r.arenaRadius == room.arenaRadius
  {
    if room.gameStarted then room
    else room.(gameStarted := true, countdownRunning := true)
  }

  /** One firing of the countdown interval; at zero it stops and starts the game loop. */
  function CountdownStep(room: Room): (r: Room)
    ensures !room.countdownRunning ==> r == room
    ensures room.countdownRunning ==> r.startTimer == room.startTimer - 1
    ensures room.countdownRunning ==> (r.countdownRunning <==> r.startTimer > 0)
    ensures room.countdownRunning && r.startTimer <= 0 ==> r.loopRunning
    ensures room.countdownRunning && r.startTimer > 0 ==> r.loopRunning == room.loopRunning
    ensures r == room.(startTimer := r.startTimer, countdownRunning := r.countdownRunning,
                       loopRunning := r.loopRunning)
  {
    if !room.countdownRunning then room
    else
      var t := room.startTimer - 1;
      if t <= 0 then room.(startTimer := t, countdownRunning := false, loopRunning := true)
      else room.(startTimer := t)
  }

  /** `n` consecutive firings of the countdown interval. */
  function Countdown(room: Room, n: nat): Room
    decreases n
  {
    if n == 0 then room else Countdown(CountdownStep(room), n - 1)
  }

  lemma {:induction false} CountdownIdle(room: Room, n: nat)
    requires !room.countdownRunning
    ensures Countdown(room, n) == room
    decreases n
  {
    if n > 0 {
      CountdownIdle(CountdownStep(room), n - 1);
    }
  }

  /**
    An armed countdown at `startTimer` t lasts max(t, 1) firings: the loop
    starts at exactly that firing, and `startTimer` has by then dropped by as much.
  */
  lemma {:induction false} CountdownLength(room: Room, n: nat)
    requires Valid(room) && room.countdownRunning
    ensures var steps := if room.startTimer >= 1 then room.startTimer else 1;
      && (Countdown(room, n).loopRunning <==> n >= steps)
      && Countdown(room, n).startTimer == room.startTimer - (if n <= steps then n else steps)
      && Countdown(room, n).players == room.players
      && Valid(Countdown(room, n))
    decreases n
  {
    if n > 0 {
      var next := CountdownStep(room);
      if next.startTimer <= 0 {
        CountdownIdle(next, n - 1);
      } else {
        CountdownLength(next, n - 1);
      }
    }
  }

  /** A fresh room's first countdown takes five firings and leaves `startTimer` at 0. */
  lemma FirstCountdown(id: string, ps: seq<Player>, n: nat)
    ensures var room := StartGame(NewRoom(id).(players := ps));
      && (Countdown(room, n).loopRunning <==> n >= 5)
      && Countdown(room, 5).startTimer == 0
  {
    var room := StartGame(NewRoom(id).(players := ps));
    CountdownLength(room, n);
    CountdownLength(room, 5);
  }

  /**
    `startTimer` is never reset, so once a countdown has run to zero, the next
    game's countdown starts the loop at its first firing.
  */
  lemma RestartSkipsCountdown(room: Room)
    requires Valid(room) && !room.gameStarted && room.startTimer <= 1
    ensures CountdownStep(StartGame(room)).loopRunning
  {
  }

  // ------------------------------------------------------------ game tick

  /** Only position and velocity differ between `p` and `q`. */
  predicate KinematicsOnly(p: Player, q: Player) {
    q == p.(x := q.x, y := q.y, vx := q.vx, vy := q.vy)
  }

  /** Only position differs between `p` and `q`. */
  predicate MovedOnly(p: Player, q: Player) {
    q == p.(x := q.x, y := q.y)
  }

  /**
    `updatePhysics` with its floating-point kinematics abstracted as `advance`,
    whose result contributes only position and velocity. Dead players are skipped.
  */
  function UpdatePhysics(ps: seq<Player>, advance: Player -> Player): (r: seq<Player>)
    ensures |r| == |ps|
    ensures forall k :: 0 <= k < |ps| && !ps[k].alive ==> r[k] == ps[k]
    ensures forall k :: 0 <= k < |ps| ==> KinematicsOnly(ps[k], r[k])
    ensures forall k :: 0 <= k < |ps| && ps[k].alive ==>
      r[k].x == advance(ps[k]).x && r[k].y == advance(ps[k]).y &&
      r[k].vx == advance(ps[k]).vx && r[k].vy == advance(ps[k]).vy
  {
    seq(|ps|, k requires 0 <= k < |ps| =>
      if ps[k].alive then
        var q := advance(ps[k]);
        ps[k].(x := q.x, y := q.y, vx := q.vx, vy := q.vy)
      else ps[k])
  }

  datatype Axis = X | Y

  function Coord(p: Player, a: Axis): real {
    match a
    case X => p.x
    case Y => p.y
  }

  /** Sum of one coordinate over a roster. */
  function Sum(ps: seq<Player>, a: Axis): real {
    if |ps| == 0 then 0.0 else Sum(ps[..|ps| - 1], a) + Coord(ps[|ps| - 1], a)
  }

  lemma {:induction false} SumUpdate(ps: seq<Player>, k: nat, q: Player, a: Axis)
    requires k < |ps|
    ensures Sum(ps[k := q], a) == Sum(ps, a) - Coord(ps[k], a) + Coord(q, a)
  {
    var n := |ps|;
    if k == n - 1 {
      assert ps[k := q][..n - 1] == ps[..n - 1];
    } else {
      assert ps[k := q][..n - 1] == ps[..n - 1][k := q];
      SumUpdate(ps[..n - 1], k, q, a);
    }
  }

  /** Dead and invulnerable players take no part in body collisions. */
  predicate Frozen(p: Player) {
    !p.alive || p.isInvulnerable
  }

  /** Centres closer than the contact distance, compared without a square root. */
  predicate Touching(p: Player, q: Player) {
    NormSq(q.x - p.x, q.y - p.y) < ContactDistance * ContactDistance
  }

  /**
    The body of the inner collision loop for the pair (i, j): a touching pair of
    active players is pushed by half their velocity difference, in opposite
    directions.
  */
  function CollidePair(ps: seq<Player>, i: nat, j: nat): (r: seq<Player>)
    requires i < j < |ps|
    ensures |r| == |ps|
    ensures forall k :: 0 <= k < |ps| && k != i && k != j ==> r[k] == ps[k]
    ensures MovedOnly(ps[i], r[i]) && MovedOnly(ps[j], r[j])
    ensures r[i].x - ps[i].x == ps[j].x - r[j].x && r[i].y - ps[i].y == ps[j].y - r[j].y
    ensures forall a :: Sum(r, a) == Sum(ps, a)
    ensures Frozen(ps[i]) || Frozen(ps[j]) || !Touching(ps[i], ps[j]) ==> r == ps
    ensures !Frozen(ps[i]) && !Frozen(ps[j]) && Touching(ps[i], ps[j]) ==>
      r[j].x == ps[j].x + (ps[j].vx - ps[i].vx) * 0.5 &&
      r[j].y == ps[j].y + (ps[j].vy - ps[i].vy) * 0.5
  {
    var p1 := ps[i];
    var p2 := ps[j];
    if Frozen(p1) || Frozen(p2) || !Touching(p1, p2) then ps
    else
      var fx := (p2.vx - p1.vx) * 0.5;
      var fy := (p2.vy - p1.vy) * 0.5;
      var q1 := p1.(x := p1.x - fx, y := p1.y - fy);
      var q2 := p2.(x := p2.x + fx, y := p2.y + fy);
      var mid := ps[i := q1];
      SumUpdate(ps, i, q1, X);
      SumUpdate(ps, i, q1, Y);
      SumUpdate(mid, j, q2, X);
      SumUpdate(mid, j, q2, Y);
      mid[j := q2]
  }

  /**
    The nested loops of `handleCollisions` from pair (i, j) on: j runs to the
    end of the roster, then i advances and j restarts at i + 1. Each pair sees
    the positions left by the pairs before it.
  */
  function Resolve(ps: seq<Player>, i: nat, j: nat): (r: seq<Player>)
    requires i < j
    ensures |r| == |ps|
    ensures forall k :: 0 <= k < |ps| ==> MovedOnly(ps[k], r[k])
    ensures forall k :: 0 <= k < |ps| && Frozen(ps[k]) ==> r[k] == ps[k]
    ensures forall a :: Sum(r, a) == Sum(ps, a)
    decreases |ps| - i, |ps| - j
  {
    if i >= |ps| then ps
    else if j >= |ps| then Resolve(ps, i + 1, i + 2)
    else Resolve(CollidePair(ps, i, j), i, j + 1)
  }

  /**
    `handleCollisions`: only positions change, dead or invulnerable players do
    not move, and every push is matched by an equal and opposite one, so the
    sum of each coordinate over the roster is preserved.
  */
  function HandleCollisions(ps: seq<Player>): (r: seq<Player>)
    ensures |r| == |ps|
    ensures forall k :: 0 <= k < |ps| ==> MovedOnly(ps[k], r[k])
    ensures forall k :: 0 <= k < |ps| && Frozen(ps[k]) ==> r[k] == ps[k]
    ensures forall a :: Sum(r, a) == Sum(ps, a)
  {
    Resolve(ps, 0, 1)
  }

  /**
    Outside the arena, compared without a square root. A distance is never
    negative, so every player is outside an arena of negative radius.
  */
  predicate OutOfArena(p: Player, radius: real) {
    radius < 0.0 || NormSq(p.x, p.y) > radius * radius
  }

  /** The square-free test agrees with the code's `Math.sqrt(x² + y²) > radius` for every radius. */
  lemma OutOfArenaIsDistanceTest(p: Player, radius: real, d: real)
    requires IsRoot(d, NormSq(p.x, p.y))
    ensures OutOfArena(p, radius) <==> d > radius
  {
    if radius >= 0.0 {
      if d > radius {
        SquareBelow(radius, d);
      } else {
        SquareAtMost(d, radius);
      }
    }
  }

  lemma SquareBelow(a: real, b: real)
    requires 0.0 <= a < b
    ensures a * a < b * b
  {
    var aa, ab, bb := a * a, a * b, b * b;
    assert aa <= ab;
    assert ab < bb;
  }

  lemma SquareAtMost(a: real, b: real)
    requires 0.0 <= a <= b
    ensures a * a <= b * b
  {
    var aa, ab, bb := a * a, a * b, b * b;
    assert aa <= ab;
    assert ab <= bb;
  }

  /** `checkArenaBounds`: living players outside the arena die; nothing else changes. */
  function CheckArenaBounds(ps: seq<Player>, radius: real): (r: seq<Player>)
    ensures |r| == |ps|
    ensures forall k :: 0 <= k < |ps| ==> r[k] == ps[k].(alive := r[k].alive)
    ensures forall k :: 0 <= k < |ps| ==> (r[k].alive <==> ps[k].alive && !OutOfArena(ps[k], radius))
  {
    seq(|ps|, k requires 0 <= k < |ps| =>
      if ps[k].alive && OutOfArena(ps[k], radius) then ps[k].(alive := false) else ps[k])
  }

  /**
    One tick's decrement of a cooldown value. The room treats the value as
    remaining milliseconds, although the player stores an absolute timestamp.
  */
  function Decay(c: int): (r: int)
    ensures c <= 0 ==> r == c
    ensures c > 0 ==> 0 <= r < c && r >= c - TickMs && (r == 0 || r == c - TickMs)
  {
    if c > 0 then (if c - TickMs < 0 then 0 else c - TickMs) else c
  }

  function DecayAll(cd: Cooldowns): (r: Cooldowns)
    ensures forall a :: r.Get(a) == Decay(cd.Get(a))
  {
    Cooldowns(Decay(cd.push), Decay(cd.sprint), Decay(cd.slide), Decay(cd.invul))
  }

  /** `checkCooldowns`: every player, dead or alive, has each cooldown decayed. */
  function CheckCooldowns(ps: seq<Player>): (r: seq<Player>)
    ensures |r| == |ps|
    ensures forall k :: 0 <= k < |ps| ==> r[k] == ps[k].(cooldowns := DecayAll(ps[k].cooldowns))
  {
    seq(|ps|, k requires 0 <= k < |ps| => ps[k].(cooldowns := DecayAll(ps[k].cooldowns)))
  }

  /**
    Because the tick subtracts from an absolute timestamp, an ability still
    cooling down at `now` can become usable at the same `now` after one tick.
  */
  lemma TickShortensCooldown(p: Player, a: Ability)
    requires p.cooldowns.Get(a) > TickMs
    ensures var now := p.cooldowns.Get(a) - TickMs;
      && !CanUseAbility(p, AbilityName(a), now)
      && CanUseAbility(p.(cooldowns := DecayAll(p.cooldowns)), AbilityName(a), now)
  {
  }

  /** The living players, in roster order (`players.filter(p => p.alive)`). */
  function Living(ps: seq<Player>): (r: seq<Player>)
    ensures forall q :: q in r <==> q in ps && q.alive
    ensures |r| == 0 <==> forall k :: 0 <= k < |ps| ==> !ps[k].alive
  {
    if |ps| == 0 then []
    else
      assert ps == [ps[0]] + ps[1..];
      (if ps[0].alive then [ps[0]] else []) + Living(ps[1..])
  }

  predicate AtMostOneAlive(ps: seq<Player>) {
    forall j, k :: 0 <= j < |ps| && 0 <= k < |ps| && ps[j].alive && ps[k].alive ==> j == k
  }

  lemma {:induction false} AtMostOneLiving(ps: seq<Player>)
    ensures |Living(ps)| <= 1 <==> AtMostOneAlive(ps)
  {
    if |ps| > 0 {
      AtMostOneLiving(ps[1..]);
      if ps[0].alive {
        AtMostOneLivingAliveHead(ps);
      } else {
        AtMostOneLivingDeadHead(ps);
      }
    }
  }

  /** The inductive step of AtMostOneLiving when the first player is alive. */
  lemma AtMostOneLivingAliveHead(ps: seq<Player>)
    requires |ps| > 0 && ps[0].alive
    requires |Living(ps[1..])| <= 1 <==> AtMostOneAlive(ps[1..])
    ensures |Living(ps)| <= 1 <==> AtMostOneAlive(ps)
  {
    var t := ps[1..];
    assert forall k :: 0 <= k < |t| ==> t[k] == ps[k + 1];
    if |Living(t)| > 0 {
      var q := Living(t)[0];
      assert q in t && q.alive;
      var k :| 0 <= k < |t| && t[k] == q;
      assert ps[k + 1].alive;
      assert !AtMostOneAlive(ps);
    }
  }

  /** The inductive step of AtMostOneLiving when the first player is dead. */
  lemma AtMostOneLivingDeadHead(ps: seq<Player>)
    requires |ps| > 0 && !ps[0].alive
    requires |Living(ps[1..])| <= 1 <==> AtMostOneAlive(ps[1..])
    ensures |Living(ps)| <= 1 <==> AtMostOneAlive(ps)
  {
    var t := ps[1..];
    assert Living(ps) == Living(t);
    assert forall k :: 0 <= k < |t| ==> t[k] == ps[k + 1];
    if AtMostOneAlive(t) {
      forall j, k | 0 <= j < |ps| && 0 <= k < |ps| && ps[j].alive && ps[k].alive
        ensures j == k
      {
        assert t[j - 1].alive && t[k - 1].alive;
      }
    }
  }

  /** The `winner` reported by a game-over: the survivor's id, or null. */
  datatype GameOver = GameOver(winner: Option<string>)

  /**
    `checkGameOver`: when the game has started and at most one player lives,
    the loop stops, the game is no longer started, and the survivor (if any) wins.
  */
  function CheckGameOver(room: Room): (r: (Room, Option<GameOver>))
    ensures r.1.Some? <==> room.gameStarted && AtMostOneAlive(room.players)
    ensures r.1.None? ==> r.0 == room
    ensures r.1.Some? ==> r.0 == room.(gameStarted := false, loopRunning := false)
    ensures r.1.Some? ==>
      (r.1.value.winner.None? <==> forall k :: 0 <= k < |room.players| ==> !room.players[k].alive)
    ensures r.1.Some? && r.1.value.winner.Some? ==>
      exists k :: 0 <= k < |room.players| && room.players[k].alive &&
        room.players[k].id == r.1.value.winner.value
  {
    var alive := Living(room.players);
    AtMostOneLiving(room.players);
    if |alive| <= 1 && room.gameStarted then
      var winner := if |alive| > 0 then Some(alive[0].id) else None;
      assert |alive| > 0 ==> alive[0] in alive;
      (room.(gameStarted := false, loopRunning := false), Some(GameOver(winner)))
    else
      (room, None)
  }

  /**
    How one tick leaves player `p`, given its position `m` after physics and
    collisions: as `m`, except that it stays alive exactly when it was alive and
    `m` is inside the arena, and its cooldowns are decayed once.
  */
  predicate Settled(p: Player, m: Player, q: Player, radius: real) {
    && (q.alive <==> p.alive && !OutOfArena(m, radius))
    && q.cooldowns == DecayAll(p.cooldowns)
    && q == m.(alive := q.alive, cooldowns := q.cooldowns)
  }

  /** The per-player part of a tick: bounds then cooldowns after the movement steps. */
  lemma TickSettles(ps: seq<Player>, advance: Player -> Player, radius: real)
    ensures var moved := HandleCollisions(UpdatePhysics(ps, advance));
      var cooled := CheckCooldowns(CheckArenaBounds(moved, radius));
      && |cooled| == |ps|
      && (forall k :: 0 <= k < |ps| ==> Settled(ps[k], moved[k], cooled[k], radius))
      && (forall k :: 0 <= k < |ps| ==> cooled[k].id == ps[k].id)
      && (forall k :: 0 <= k < |ps| && cooled[k].alive ==> ps[k].alive)
      && (forall k :: 0 <= k < |ps| && !ps[k].alive ==>
            cooled[k] == ps[k].(cooldowns := DecayAll(ps[k].cooldowns)))
      && (forall k :: 0 <= k < |ps| && cooled[k].alive ==> !OutOfArena(cooled[k], radius))
      && (AtMostOneAlive(cooled) <==> AtMostOneAlive(CheckArenaBounds(moved, radius)))
  {
    var physics := UpdatePhysics(ps, advance);
    var moved := HandleCollisions(physics);
    var cooled := CheckCooldowns(CheckArenaBounds(moved, radius));
    forall k | 0 <= k < |ps|
      ensures Settled(ps[k], moved[k], cooled[k], radius)
    {
      assert KinematicsOnly(ps[k], physics[k]);
      assert MovedOnly(physics[k], moved[k]);
    }
    assert AtMostOneAlive(cooled) <==> AtMostOneAlive(CheckArenaBounds(moved, radius));
  }

  /**
    One firing of the game loop: physics, collisions, arena bounds, cooldowns,
    game-over check, in that order. Returns the game-over event, if one fired.
  */
  function Tick(room: Room, advance: Player -> Player): (r: (Room, Option<GameOver>))
    ensures !room.loopRunning ==> r == (room, None)
    ensures r.0.id == room.id && r.0.startTimer == room.startTimer
    ensures r.0.arenaRadius == room.arenaRadius && r.0.countdownRunning == room.countdownRunning
    ensures |r.0.players| == |room.players|
    ensures forall k :: 0 <= k < |room.players| ==> r.0.players[k].id == room.players[k].id
    ensures forall k :: 0 <= k < |room.players| && r.0.players[k].alive ==> room.players[k].alive
    ensures forall k :: 0 <= k < |room.players| && room.loopRunning && !room.players[k].alive ==>
      r.0.players[k] == room.players[k].(cooldowns := DecayAll(room.players[k].cooldowns))
    ensures room.loopRunning ==>
      forall k :: 0 <= k < |r.0.players| && r.0.players[k].alive ==>
        !OutOfArena(r.0.players[k], room.arenaRadius)
    ensures room.loopRunning ==>
      var moved := HandleCollisions(UpdatePhysics(room.players, advance));
      forall k :: 0 <= k < |room.players| ==>
        Settled(room.players[k], moved[k], r.0.players[k], room.arenaRadius)
    ensures r.1.Some? <==> room.loopRunning && room.gameStarted && AtMostOneAlive(r.0.players)
    ensures r.1.Some? ==> !r.0.loopRunning && !r.0.gameStarted
    ensures r.1.Some? ==>
      (r.1.value.winner.None? <==> forall k :: 0 <= k < |r.0.players| ==> !r.0.players[k].alive)
    ensures r.1.Some? && r.1.value.winner.Some? ==>
      exists k :: 0 <= k < |r.0.players| && r.0.players[k].alive &&
        r.0.players[k].id == r.1.value.winner.value
    ensures r.1.None? ==> r.0.loopRunning == room.loopRunning && r.0.gameStarted == room.gameStarted
  {
    if !room.loopRunning then (room, None)
    else
      var moved := UpdatePhysics(room.players, advance);
      var collided := HandleCollisions(moved);
      var bounded := CheckArenaBounds(collided, room.arenaRadius);
      var cooled := CheckCooldowns(bounded);
      TickSettles(room.players, advance, room.arenaRadius);
      CheckGameOver(room.(players := cooled))
  }

  /** Every room operation keeps the phase invariant. */
  lemma ValidPreserved(room: Room, playerId: string, now: int, advance: Player -> Player)
    requires Valid(room)
    ensures Valid(StartGame(room))
    ensures Valid(CountdownStep(room))
    ensures Valid(Tick(room, advance).0)
    ensures Valid(AddPlayer(room, playerId, now))
    ensures Valid(RemovePlayer(room, playerId))
  {
  }
}

=== FILE: room_manager.dfy ===
/**
  The room directory of server/RoomManager.js. Rooms are values, so
  `createRoom` and `getAvailableRoom` return the room's index in the directory
  instead of the room object; `getRoom` returns the room value itself.
  Player ids (a fresh uuid in the code) and the time are parameters.
*/
module RoomManager {
  import opened Wrappers
  import opened Seqs
  import opened Players
  import opened Rooms
  import Decimal

  /** Players a room takes before joiners are sent to a new one. */
  const Capacity: int := 4

  datatype Manager = Manager(rooms: seq<Room>)

  /** `"room_" + n` for a positive count n. */
  function RoomId(n: nat): string {
    "room_" + Decimal.FromNat(n)
  }

  /** Ids made from different counts differ. */
  lemma RoomIdInjective(m: nat, n: nat)
    ensures RoomId(m) == RoomId(n) ==> m == n
  {
    if RoomId(m) == RoomId(n) {
      assert Decimal.FromNat(m) == RoomId(m)[5..];
      assert Decimal.FromNat(n) == RoomId(n)[5..];
      Decimal.FromNatInjective(m, n);
    }
  }

  /** `createRoom`: appends one empty, unstarted room and returns its index. */
  function CreateRoom(m: Manager): (r: (Manager, nat))
    ensures r.1 == |m.rooms| && |r.0.rooms| == |m.rooms| + 1
    ensures r.0.rooms[..|m.rooms|] == m.rooms
    ensures r.0.rooms[r.1].id == RoomId(|m.rooms| + 1)
    ensures r.0.rooms[r.1].players == [] && !r.0.rooms[r.1].gameStarted
    ensures r.0.rooms[r.1].startTimer == 5 && r.0.rooms[r.1].arenaRadius == 500.0
    ensures !r.0.rooms[r.1].countdownRunning && !r.0.rooms[r.1].loopRunning
    ensures r.0.rooms[r.1] == NewRoom(RoomId(|m.rooms| + 1))
    ensures Valid(r.0.rooms[r.1])
  {
    assert (m.rooms + [NewRoom(RoomId(|m.rooms| + 1))])[..|m.rooms|] == m.rooms;
    (Manager(m.rooms + [NewRoom(RoomId(|m.rooms| + 1))]), |m.rooms|)
  }

  /** A room a joiner may be put in. */
  predicate Open(room: Room) {
    |room.players| < Capacity && !room.gameStarted
  }

  /**
    `getAvailableRoom`: only the last room is considered; when it is missing,
    full or started, a new room is created. Either way the result is the last room.
  */
  function GetAvailableRoom(m: Manager): (r: (Manager, nat))
    ensures r.1 == |r.0.rooms| - 1
    ensures Open(r.0.rooms[r.1])
    ensures r.0 == m <==> |m.rooms| > 0 && Open(m.rooms[|m.rooms| - 1])
    ensures r.0 != m ==> r == CreateRoom(m)
  {
    if |m.rooms| == 0 || !Open(m.rooms[|m.rooms| - 1]) then CreateRoom(m)
    else (m, |m.rooms| - 1)
  }

  /**
    `addPlayer`: the joiner, with the given id, is appended to the available
    room. Returns the directory and the room's index.
  */
  function AddPlayer(m: Manager, playerId: string, now: int): (r: (Manager, nat))
    ensures var (m1, k) := GetAvailableRoom(m);
      && r.1 == k && |r.0.rooms| == |m1.rooms|
      && r.0.rooms[k] == Rooms.AddPlayer(m1.rooms[k], playerId, now)
      && (forall j :: 0 <= j < |m1.rooms| && j != k ==> r.0.rooms[j] == m1.rooms[j])
    ensures |r.0.rooms[r.1].players| <= Capacity
    ensures r.0.rooms[r.1].players[|r.0.rooms[r.1].players| - 1] == NewPlayer(playerId, now)
  {
    var (m1, k) := GetAvailableRoom(m);
    var room := m1.rooms[k];
    assert Open(room);
    var joined := Rooms.AddPlayer(room, playerId, now);
    assert |joined.players| <= Capacity;
    (Manager(m1.rooms[k := joined]), k)
  }

  /** The first room whose roster holds `playerId`. */
  function FindRoomOf(rooms: seq<Room>, playerId: string): (r: Option<nat>)
    ensures r.None? <==> forall k :: 0 <= k < |rooms| ==> !HasPlayer(rooms[k], playerId)
    ensures r.Some? ==> r.value < |rooms| && HasPlayer(rooms[r.value], playerId)
    ensures r.Some? ==> forall k :: 0 <= k < r.value ==> !HasPlayer(rooms[k], playerId)
  {
    FirstIndex(rooms, (room: Room) => HasPlayer(room, playerId))
  }

  function ClearReady(ps: seq<Player>): (r: seq<Player>)
    ensures |r| == |ps|
    ensures forall k :: 0 <= k < |ps| ==> r[k] == ps[k].(ready := false)
  {
    seq(|ps|, k requires 0 <= k < |ps| => ps[k].(ready := false))
  }

  /** The sequence without its k-th element. */
  function Delete<T>(s: seq<T>, k: nat): (r: seq<T>)
    requires k < |s|
    ensures |r| == |s| - 1
    ensures forall j :: 0 <= j < k ==> r[j] == s[j]
    ensures forall j :: k <= j < |r| ==> r[j] == s[j + 1]
  {
    s[..k] + s[k + 1..]
  }

  /**
    `removePlayer`: the first room holding the player loses it; if that room
    has not started, everyone left in it becomes unready; if it is now empty it
    leaves the directory. Returns the room's id, or None when nobody has the id.
  */
  function RemovePlayer(m: Manager, playerId: string): (r: (Manager, Option<string>))
    ensures r.1.None? <==> forall k :: 0 <= k < |m.rooms| ==> !HasPlayer(m.rooms[k], playerId)
    ensures r.1.None? ==> r.0 == m
    ensures r.1.Some? ==>
      var k := FindRoomOf(m.rooms, playerId).value;
      var room := m.rooms[k];
      var left := Without(room.players, playerId);
      && r.1.value == room.id
      && (|left| == 0 <==> |r.0.rooms| == |m.rooms| - 1)
      && (|left| == 0 ==> r.0.rooms == Delete(m.rooms, k))
      && (|left| > 0 ==>
        && |r.0.rooms| == |m.rooms|
        && (forall j :: 0 <= j < |m.rooms| && j != k ==> r.0.rooms[j] == m.rooms[j])
        && r.0.rooms[k] == room.(players := r.0.rooms[k].players)
        && !HasPlayer(r.0.rooms[k], playerId)
        && |r.0.rooms[k].players| == |left|
        && (forall i :: 0 <= i < |left| ==>
              r.0.rooms[k].players[i] == left[i].(ready := r.0.rooms[k].players[i].ready))
        && (!room.gameStarted ==> forall i :: 0 <= i < |left| ==> !r.0.rooms[k].players[i].ready)
        && (room.gameStarted ==> r.0.rooms[k].players == left))
  {
    match FindRoomOf(m.rooms, playerId)
    case None => (m, None)
    case Some(k) =>
      var room := m.rooms[k];
      var left := Without(room.players, playerId);
      var remaining := if room.gameStarted then left else ClearReady(left);
      if |remaining| == 0 then (Manager(Delete(m.rooms, k)), Some(room.id))
      else (Manager(m.rooms[k := room.(players := remaining)]), Some(room.id))
  }

  /**
    The room-side part of `setReady`: the first player with the id gets
    `ready := value`, and a room that is then all ready starts its game.
  */
  function MarkReady(room: Room, playerId: string, value: bool): (r: Room)
    requires HasPlayer(room, playerId)
    ensures var i := PlayerIndex(room.players, playerId).value;
      r.players == room.players[i := room.players[i].(ready := value)]
    ensures AllReady(r.players) ==> r.gameStarted
    ensures r.gameStarted <==> room.gameStarted || AllReady(r.players)
    ensures r.countdownRunning <==>
      room.countdownRunning || (!room.gameStarted && AllReady(r.players))
    ensures r == room.(players := r.players, gameStarted := r.gameStarted,
                       countdownRunning := r.countdownRunning)
  {
    var i := PlayerIndex(room.players, playerId).value;
    var marked := room.(players := room.players[i := room.players[i].(ready := value)]);
    if AllReady(marked.players) then StartGame(marked) else marked
  }

  /**
    `setReady`: in the first room holding the player, `MarkReady`; false and
    no change when no room holds it.
  */
  function SetReady(m: Manager, playerId: string, value: bool): (r: (Manager, bool))
    ensures r.1 <==> exists k :: 0 <= k < |m.rooms| && HasPlayer(m.rooms[k], playerId)
    ensures !r.1 ==> r.0 == m
    ensures |r.0.rooms| == |m.rooms|
    ensures r.1 ==>
      var k := FindRoomOf(m.rooms, playerId).value;
      && (forall j :: 0 <= j < |m.rooms| && j != k ==> r.0.rooms[j] == m.rooms[j])
      && r.0.rooms[k] == MarkReady(m.rooms[k], playerId, value)
  {
    match FindRoomOf(m.rooms, playerId)
    case None => (m, false)
    case Some(k) => (Manager(m.rooms[k := MarkReady(m.rooms[k], playerId, value)]), true)
  }

  /** `getRoom`: the first room with the given id, or None. */
  function GetRoom(m: Manager, roomId: string): (r: Option<Room>)
    ensures r.None? <==> forall k :: 0 <= k < |m.rooms| ==> m.rooms[k].id != roomId
    ensures r.Some? ==> r.value.id == roomId
    ensures r.Some? ==> exists k :: (0 <= k < |m.rooms| && m.rooms[k] == r.value &&
      forall j :: 0 <= j < k ==> m.rooms[j].id != roomId)
  {
    match FirstIndex(m.rooms, (room: Room) => room.id == roomId)
    case None => None
    case Some(k) => Some(m.rooms[k])
  }

  /**
    The directory invariant: every room is within capacity, keeps its phase
    invariant, and has at least one player.
  */
  predicate Good(m: Manager) {
    forall k :: 0 <= k < |m.rooms| ==>
      0 < |m.rooms[k].players| <= Capacity && Valid(m.rooms[k])
  }

  lemma AddPlayerKeepsGood(m: Manager, playerId: string, now: int)
    requires Good(m)
    ensures Good(AddPlayer(m, playerId, now).0)
  {
  }

  lemma RemovePlayerKeepsGood(m: Manager, playerId: string)
    requires Good(m)
    ensures Good(RemovePlayer(m, playerId).0)
  {
  }

  lemma SetReadyKeepsGood(m: Manager, playerId: string, value: bool)
    requires Good(m)
    ensures Good(SetReady(m, playerId, value).0)
  {
  }

  /** The room search depends only on which rooms hold the player. */
  lemma FindRoomOfAgrees(a: seq<Room>, b: seq<Room>, playerId: string)
    requires |a| == |b|
    requires forall k :: 0 <= k < |a| ==> (HasPlayer(a[k], playerId) <==> HasPlayer(b[k], playerId))
    ensures FindRoomOf(a, playerId) == FindRoomOf(b, playerId)
  {
  }

  /** Marking keeps every player's id in place. */
  lemma MarkReadyKeepsIds(room: Room, playerId: string, value: bool)
    requires HasPlayer(room, playerId)
    ensures var r := MarkReady(room, playerId, value);
      |r.players| == |room.players| &&
      forall i :: 0 <= i < |room.players| ==> r.players[i].id == room.players[i].id
  {
  }

  lemma {:induction false} MarkReadyIdempotent(room: Room, playerId: string, value: bool)
    requires HasPlayer(room, playerId)
    ensures HasPlayer(MarkReady(room, playerId, value), playerId)
    ensures MarkReady(MarkReady(room, playerId, value), playerId, value) == MarkReady(room, playerId, value)
  {
    var once := MarkReady(room, playerId, value);
    var i := PlayerIndex(room.players, playerId).value;
    MarkReadyKeepsIds(room, playerId, value);
    assert once.players[i].id == playerId;
    assert PlayerIndex(once.players, playerId) == Some(i);
    assert once.players[i := once.players[i].(ready := value)] == once.players;
  }

  /** Marking a player ready twice is the same as marking it once. */
  lemma SetReadyIdempotent(m: Manager, playerId: string, value: bool)
    ensures var once := SetReady(m, playerId, value);
      SetReady(once.0, playerId, value) == once
  {
    var once := SetReady(m, playerId, value);
    match FindRoomOf(m.rooms, playerId)
    case None =>
    case Some(k) =>
      var m' := once.0;
      MarkReadyKeepsIds(m.rooms[k], playerId, value);
      forall j | 0 <= j < |m.rooms|
        ensures HasPlayer(m.rooms[j], playerId) <==> HasPlayer(m'.rooms[j], playerId)
      {
        if j == k {
          var ps := m.rooms[k].players;
          var ps' := m'.rooms[k].players;
          assert forall i :: 0 <= i < |ps| ==> ps[i].id == ps'[i].id;
        }
      }
      FindRoomOfAgrees(m.rooms, m'.rooms, playerId);
      MarkReadyIdempotent(m.rooms[k], playerId, value);
      assert m'.rooms[k := MarkReady(m'.rooms[k], playerId, value)] == m'.rooms;
  }

  /**
    Room ids are not unique: after the first room empties and leaves the
    directory, the next room created gets the id of the room that was second.
  */
  lemma RoomIdsCanRepeat()
    ensures var first := NewRoom(RoomId(1)).(players := [NewPlayer("a", 0)]);
      var second := NewRoom(RoomId(2)).(players :=
        [NewPlayer("b", 0), NewPlayer("c", 0), NewPlayer("d", 0), NewPlayer("e", 0)]);
      var m := RemovePlayer(Manager([first, second]), "a").0;
      var m' := AddPlayer(m, "f", 0).0;
      |m'.rooms| == 2 && m'.rooms[0].id == m'.rooms[1].id
  {
    var first := NewRoom(RoomId(1)).(players := [NewPlayer("a", 0)]);
    var second := NewRoom(RoomId(2)).(players :=
      [NewPlayer("b", 0), NewPlayer("c", 0), NewPlayer("d", 0), NewPlayer("e", 0)]);
    var m0 := Manager([first, second]);
    assert first.players[0].id == "a";
    assert FindRoomOf(m0.rooms, "a") == Some(0);
    assert Without(first.players, "a") == [];
    var m := RemovePlayer(m0, "a").0;
    assert m.rooms == [second];
    assert !Open(second);
  }
}

=== FILE: seqs.dfy ===
/** Linear search over sequences, the shape of `Array.prototype.find` and `findIndex`. */
module Seqs {
  import opened Wrappers

  /** The index of the first element satisfying `p`, or None when there is none. */
  function FirstIndex<T>(s: seq<T>, p: T -> bool): (r: Option<nat>)
    ensures r.None? <==> forall k :: 0 <= k < |s| ==> !p(s[k])
    ensures r.Some? ==> r.value < |s| && p(s[r.value])
    ensures r.Some? ==> forall k :: 0 <= k < r.value ==> !p(s[k])
  {
    if |s| == 0 then None
    else if p(s[0]) then Some(0)
    else
      match FirstIndex(s[1..], p)
      case None => None
      case Some(k) => Some(k + 1)
  }
}

=== FILE: wrappers.dfy ===
/** The Some/None datatype used wherever the JavaScript code returns a value or `null`/`undefined`. */
module Wrappers {

  datatype Option<+T> = None | Some(value: T)
}
